=== FILE: README.md ===
# Authentication actions of the issue tracker, modelled in Dafny

This project models the three server actions of the issue tracker's
authentication layer, all in `app/actions/auth.ts`:

- **sign-in** validates the form, looks the user up by address, verifies
  the password and opens a session. It stops at the first failure.
- **sign-up** validates the form, including the password-confirmation rule.
  It rejects an address that is already registered, creates the user and
  opens a session for it.
- **sign-out** deletes the current session and calls `redirect('/')`
  inside its `try` block, so the caller gets `UnexpectedError` (see
  Findings).

Every action answers with one `ActionResponse` record
(`success`, `message`, optional field `errors`, optional `error`). Expected
failures are returned as data. Anything a collaborator throws is caught
and turned into the generic `UnexpectedError` response.

Each action is a pure function. It takes the collaborators' state and
returns a response together with the new state. The state holds:

- a map from e-mail address to user;
- a multiset of session user-ids, with one element per session-creation
  call, so a user may hold several sessions;
- the id the store will give to the next user.

The parts of the environment that are not visible stay abstract. They are
gathered in an `Env` value: the e-mail syntax check, password hashing and
password verification. Which collaborator calls throw is also a parameter,
`faults`. A call in `faults` throws when it is reached. A call that throws
has no effect.

Modules:

- `Form`: reads a field of the submitted form. `FormData.get` returns the
  first entry with the name. `|| ''` turns a missing field into "".
- `Response`: the response record and its fixed messages.
- `Schema`: the two zod schemas. They build a list of issues and flatten
  it into `fieldErrors`.
- `Store`: the collaborators and the store invariant.
- `Actions`: the three actions.
- `Properties`: lemmas that relate the actions to independent
  descriptions of their outcomes and to each other.

Modelling choices:

- Every field is already a string when it is parsed, because missing
  fields were defaulted first. So zod's object parse never aborts. Each
  failing string check adds an issue, in declaration order. The sign-up
  cross-field rule also runs when a field rule failed. A password and
  confirmation that differ therefore always put "Passwords don't match"
  under `confirmPassword`.
- Sign-up creates the user and then creates the session. If session
  creation throws, the new user stays registered with no session, and a
  retry is told "User already exists". The code does this, so the model
  does too. Nothing removes the user again; see
  `Properties.SignUpLeavesOrphanUser`.

## Model

| member | source | states |
|---|---|---|
| `Form.Get` | app/actions/auth.ts:49-50 | The lookup returns nothing exactly when no entry has the name. Otherwise it returns the value of the first entry with that name. |
| `Form.Field` | app/actions/auth.ts:115-119 | A missing field reads as "". A present field reads as the value of its first occurrence. |
| `Schema.EmailIssues` | app/actions/auth.ts:17 | The address rules report nothing exactly when the address is non-empty and well-formed. They report only their own two messages under `email`, each exactly when its rule fails. |
| `Schema.ConfirmIssues` | app/actions/auth.ts:26-31 | The confirmation rules report nothing exactly when the confirmation is non-empty and equals the password. They report only their own two messages under `confirmPassword`, each exactly when its rule fails. |
| `Schema.SignInIssues` | app/actions/auth.ts:16-19 | No issue is reported exactly when the address is non-empty and well-formed and the password is non-empty. Only the three sign-in rules' issues can appear, none of them twice. Each rule's message is reported exactly when that rule fails. |
| `Schema.SignUpIssues` | app/actions/auth.ts:22-31 | No issue is reported exactly when all sign-up rules hold, including password == confirmation. Only the five sign-up rules' issues can appear. Each rule's message is reported exactly when that rule fails: the length message under `password` exactly for a password under six characters, and "Passwords don't match" under `confirmPassword` exactly when the two differ, whatever else is wrong. |
| `Schema.SignUpIssuesNoRepeats` | app/actions/auth.ts:22-31 | No sign-up issue is reported twice. |
| `Schema.NoRepeatsAppend` | app/actions/auth.ts:22-31 | Joining two repeat-free issue lists with no issue in common gives a repeat-free list. |
| `Schema.SafeParseSignIn` | app/actions/auth.ts:54 | The parse succeeds exactly when the sign-in rules hold and then returns the input unchanged. A failed parse carries at least one issue. |
| `Schema.SafeParseSignUp` | app/actions/auth.ts:122 | The parse succeeds exactly when the sign-up rules hold and then returns the input unchanged. A failed parse carries at least one issue. |
| `Schema.Flatten` | app/actions/auth.ts:60 | A field is a key exactly when some issue names it. Each key maps to that field's messages in issue order, matching a per-field filter, and the list is never empty. |
| `Schema.FlattenNonEmpty` | app/actions/auth.ts:56-61 | A failed validation yields a non-empty field-error map of non-empty lists. |
| `Store.FindUser` | app/actions/auth.ts:65 | The lookup is empty exactly when the address is unregistered. Under the invariant, a found user is filed under its own address and its id is registered. |
| `Store.InsertUser` | app/actions/auth.ts:143 | The new user gets the next id and the hashed password. It is filed under its address, every other user is unchanged, and sessions are untouched. |
| `Store.InsertUserKeepsValid` | app/actions/auth.ts:143 | Filing a new address keeps the store invariant. The new id was not in use before. |
| `Store.OpenSession` | app/actions/auth.ts:92 | Exactly one session for the id is added. For a registered id, the invariant is kept. |
| `Store.CloseSession` | app/actions/auth.ts:166 | Only the current request's session is removed, and nothing is removed when there is none. The invariant is kept. |
| `Actions.SignIn` | app/actions/auth.ts:44-110 | Every response is well-formed. A failure changes nothing. A success adds one session for the user with that address. An `error` code appears only as `UnexpectedError`, and only when the user lookup, password verification or session creation throws. |
| `Actions.SignUp` | app/actions/auth.ts:113-160 | Every response is well-formed. A success files the new user under its address with a fresh id, advances the id counter by one and adds one session for that id, and changes nothing else. An `error` code appears only as `UnexpectedError`, and only when the user lookup, user creation or session creation throws. The only failure that changes state is a session-creation fault, which leaves the new user behind. |
| `Actions.SignOutTryBlock` | app/actions/auth.ts:163-170 | The sign-out `try` block never completes normally. It throws a collaborator failure exactly when deletion throws, and otherwise the navigation signal to "/". |
| `Actions.SignOutAsWritten` | app/actions/auth.ts:162-183 | As written, sign-out always answers exactly the generic `UnexpectedError` response, with its fixed message and no field errors. The session is still deleted unless deletion throws. |
| `Actions.SignOut` | app/actions/auth.ts:162-183 | Corrected sign-out redirects to "/" exactly when deletion does not throw. It then removes the current request's session, if there is one, and changes nothing else: users, other sessions and the id counter stay. Otherwise it answers `UnexpectedError` and changes nothing. |
| `Properties.SignInSucceedsIff` | app/actions/auth.ts:48-98 | Sign-in succeeds exactly when the credentials pass validation, the user exists, the password verifies and no call throws. |
| `Properties.SignUpSucceedsIff` | app/actions/auth.ts:115-151 | Sign-up succeeds exactly when the registration is valid for an unregistered address and no call throws. |
| `Properties.SignInUnexpectedIff` | app/actions/auth.ts:101-108 | Sign-in answers `UnexpectedError` exactly when a call it reaches throws. That leaves the state unchanged. |
| `Properties.SignUpUnexpectedIff` | app/actions/auth.ts:152-158 | Sign-up answers `UnexpectedError` exactly when a call it reaches throws. |
| `Properties.ValidationIgnoresFaults` | app/actions/auth.ts:54-62 | A rejected form reaches no collaborator. The response is the same whatever the store holds and whichever calls would throw, and the state is left unchanged. |
| `Properties.SignInValidationFailed` | app/actions/auth.ts:48-62 | Any form that breaks a sign-in rule is answered with exactly "Validation failed" and the flattened issues of the rules it breaks. Nothing changes. |
| `Properties.SignUpValidationFailed` | app/actions/auth.ts:115-130 | Any form that breaks a sign-up rule is answered with exactly "Validation failed" and the flattened issues of the rules it breaks. Nothing changes. |
| `Properties.SignInEmptyFieldRejected` | app/actions/auth.ts:48-61 | A missing or empty address or password gives "Validation failed" with a non-empty `errors` map. Each empty field carries its "required" message, and the state is unchanged. |
| `Properties.MessageReported` | app/actions/auth.ts:60 | Every reported issue appears in the flattened map under its field. |
| `Properties.MessagesForContains` | app/actions/auth.ts:60 | An issue's message is among the messages collected for its field. |
| `Properties.SignUpShortPasswordRejected` | app/actions/auth.ts:122-130 | A password under six characters fails validation with the length message under `password`. The state is unchanged. |
| `Properties.SignUpMismatchRejected` | app/actions/auth.ts:122-130 | A password and confirmation that differ fail validation with "Passwords don't match" under `confirmPassword`. The state is unchanged. |
| `Properties.SignUpOnlyMismatch` | app/actions/auth.ts:24-31 | When each field passes its own rule and only the confirmation differs, the error map is exactly `{confirmPassword: ["Passwords don't match"]}`. |
| `Properties.FlattenSingle` | app/actions/auth.ts:128 | A single issue flattens to a one-entry map. |
| `Properties.SignInUnknownEmail` | app/actions/auth.ts:65-75 | A valid but unregistered address gives exactly "User not found" with `errors.email = ["Invalid email or password"]`. Nothing changes. |
| `Properties.SignInWrongPassword` | app/actions/auth.ts:78-88 | A registered address with a password that does not verify gives exactly "Invalid email or password" under `password`. No session is created. |
| `Properties.SignInAddsOneSession` | app/actions/auth.ts:91-98 | A successful sign-in answers "Sign in successful" with no `errors` and no `error`. Users are unchanged, and exactly one session is added, for the user's id. |
| `Properties.SignUpExistingEmail` | app/actions/auth.ts:132-140 | A registered address gives exactly "User already exists" with `errors.email = ["Email is already registered"]`. Store and sessions are untouched. |
| `Properties.SignUpAddsOneUserAndSession` | app/actions/auth.ts:142-151 | A successful sign-up adds exactly one user, under the address and with an unused id. It adds exactly one session, for that id. |
| `Properties.SignUpLeavesOrphanUser` | app/actions/auth.ts:142-158 | If session creation throws after user creation, the caller gets `UnexpectedError` but the user stays registered with no new session. A retry is told the address is taken. |
| `Properties.SignInAfterSignUp` | app/actions/auth.ts:78-98 | After a fault-free sign-up with a valid registration for a new address, signing in with the same address and password succeeds, provided verification accepts a password against its own hash. |
| `Properties.SignOutAsWrittenNeverRedirects` | app/actions/auth.ts:162-183 | With no failures, corrected sign-out redirects to "/" while the code as written answers `UnexpectedError`. Both delete the session. |
| `Properties.SignOutVersionsAgreeOnState` | app/actions/auth.ts:162-183 | The two sign-outs always leave the same state. They are identical when deletion throws. |
| `Properties.SignInKeepsValid` | app/actions/auth.ts:44-110 | Sign-in keeps the store invariant: users are filed under their address, ids are distinct and below the counter, and every session belongs to a registered user. |
| `Properties.SignUpKeepsValid` | app/actions/auth.ts:113-160 | Sign-up keeps the store invariant, including when it leaves a user without a session. |
| `Properties.SignOutKeepsValid` | app/actions/auth.ts:162-183 | Both sign-outs keep the store invariant. |

## Left out

- The e-mail syntax check inside zod's `.email()` is a parameter, `Env.isEmail`.
- Password hashing inside `createUser` and the check inside `verifyPassword` are the parameters `Env.hash` and `Env.verifyPassword`.
- How `getUserByEmail`/`createUser` persist users and how `createSession`/`deleteSession` store cookies are not modelled. `lib/auth` and `lib/dal` are not part of this model. Users are a map and sessions a multiset of user ids. Ids come from a counter rather than the store's own generator.
- A collaborator call that throws is assumed to have no effect.
- `mockDelay(300)` in sign-out is left out. It only adds latency.
- `console.error` logging in the catch clauses is I/O and is left out.
- The actions are modelled one at a time. Interleaved requests are not modelled, including a race between two sign-ups of the same address, which the store must resolve.
- Form values are strings. A file upload, which `toString()` would render as text, is not modelled.
- String lengths count sequence elements. The source counts UTF-16 code units, which differ for characters outside the Basic Multilingual Plane.
- `Schema.SignInIssues`: lists the messages each violated rule contributes, but not the order in which they appear in a field's list.
- `Schema.SignUpIssues`: lists the messages each violated rule contributes, but not the order in which they appear in a field's list.
- The success response of sign-out (`app/actions/auth.ts:171-174`) has no counterpart in the model: it is unreachable, because `redirect` never returns normally.

## Findings

| source | as written | input that shows it | evidently intended | confidence | as-written member | corrected member |
|---|---|---|---|---|---|---|
| app/actions/auth.ts:169 | `redirect('/')` is called inside the `try` block. The framework's redirect works by throwing a navigation signal, so the `catch` clause catches it, logs it and returns `UnexpectedError`. The caller is never redirected, although the session was deleted. | `signOut()` when `deleteSession` succeeds | Redirect to "/" after the session is deleted. Only a failed deletion should give `UnexpectedError`, so `redirect` belongs after the try/catch. | not executed; high, since the framework documents that `redirect` throws and must stay outside `try` | `Actions.SignOutAsWritten` (shown by `Properties.SignOutAsWrittenNeverRedirects`) | `Actions.SignOut` |

=== FILE: actions.dfy ===
/** The three server actions. Each is a single request: it reads its form,
    runs its steps in order, stops at the first failure, and returns a
    response together with the collaborators' state afterwards.

    `faults` names the collaborator calls that throw when reached. A call
    that throws has no effect, and the action's catch clause turns it into
    the generic `UnexpectedError` response. */
module Actions {
  import opened Wrappers
  import opened Form
  import opened Response
  import opened Schema
  import opened Store

  /** The sign-in form as read by the action, missing fields read as "". */
  function SignInData(form: FormData): Credentials {
    Credentials(Field(form, EMAIL), Field(form, PASSWORD))
  }

  /** The sign-up form as read by the action, missing fields read as "". */
  function SignUpData(form: FormData): Registration {
    Registration(Field(form, EMAIL), Field(form, PASSWORD), Field(form, CONFIRM_PASSWORD))
  }

  /** Reference definition: the credentials pass the schema, name a
      registered user, and the password verifies against the stored one. */
  predicate Authenticates(env: Env, s: State, c: Credentials) {
    && ValidSignIn(c, env.isEmail)
    && c.email in s.users
    && env.verifyPassword(c.password, s.users[c.email].password)
  }

  /** Reference definition: the registration passes the schema and the
      address is not yet registered. */
  predicate CanRegister(env: Env, s: State, r: Registration) {
    ValidSignUp(r, env.isEmail) && r.email !in s.users
  }

  /** `signIn`: validate, look the user up, verify the password, open a session. */
  function SignIn(env: Env, s: State, form: FormData, faults: set<Call>): (r: (ActionResponse, State))
    ensures r.0.WellFormed()
    ensures r.0.success ==>
      && r.0 == SignInSuccessful()
      && SignInData(form).email in s.users
      && r.1 == s.(sessions := s.sessions + multiset{s.users[SignInData(form).email].id})
    ensures !r.0.success ==> r.1 == s
    ensures r.0.error.Some? ==> r.0 == UnexpectedError()
    ensures r.0.error.Some? ==>
      GetUserByEmail in faults || VerifyPassword in faults || CreateSession in faults
  {
    var data := SignInData(form);
    match SafeParseSignIn(data, env.isEmail)
    case Failure(issues) =>
      FlattenNonEmpty(issues);
      (ValidationFailed(Flatten(issues)), s)
    case Success(_) =>
      if GetUserByEmail in faults then (UnexpectedError(), s)
      else
        match FindUser(s, data.email)
        case None => (UserNotFound(), s)
        case Some(user) =>
          if VerifyPassword in faults then (UnexpectedError(), s)
          else if !env.verifyPassword(data.password, user.password) then (InvalidCredentials(), s)
          else if CreateSession in faults then (UnexpectedError(), s)
          else (SignInSuccessful(), OpenSession(s, user.id))
  }

  /** `signUp`: validate, reject a registered address, create the user, open
      a session for it. */
  function SignUp(env: Env, s: State, form: FormData, faults: set<Call>): (r: (ActionResponse, State))
    ensures r.0.WellFormed()
    ensures r.0.success ==>
      var d := SignUpData(form);
      && r.0 == SignUpSuccessful()
      && r.1.users == s.users[d.email := User(s.nextId, d.email, env.hash(d.password))]
      && r.1.sessions == s.sessions + multiset{s.nextId}
      && r.1 == OpenSession(InsertUser(env, s, d.email, d.password).1, s.nextId)
    ensures r.0.error.Some? ==> r.0 == UnexpectedError()
    ensures r.0.error.Some? ==>
      GetUserByEmail in faults || CreateUser in faults || CreateSession in faults
    // A failure changes nothing, except when session creation throws after
    // the user record was created.
    ensures !r.0.success && r.1 != s ==>
      r.0 == UnexpectedError() && CreateSession in faults
      && r.1 == InsertUser(env, s, SignUpData(form).email, SignUpData(form).password).1
  {
    var data := SignUpData(form);
    match SafeParseSignUp(data, env.isEmail)
    case Failure(issues) =>
      FlattenNonEmpty(issues);
      (ValidationFailed(Flatten(issues)), s)
    case Success(_) =>
      if GetUserByEmail in faults then (UnexpectedError(), s)
      else if FindUser(s, data.email).Some? then (UserAlreadyExists(), s)
      else if CreateUser in faults then (UnexpectedError(), s)
      else
        var (user, s1) := InsertUser(env, s, data.email, data.password);
        if CreateSession in faults then (UnexpectedError(), s1)
        else (SignUpSuccessful(), OpenSession(s1, user.id))
  }

  /** What the caller of `signOut` observes: a returned response, or the
      framework's navigation to `location`. */
  datatype SignOutOutcome = Respond(response: ActionResponse) | Redirect(location: string)

  /** Something thrown inside a `try` block: a collaborator's failure, or the
      navigation signal by which the framework's `redirect` transfers
      control (it never returns normally). */
  datatype Thrown = CollaboratorFailure | NavigationSignal(location: string)

  /** What the `try` block of `signOut` as written throws: it deletes the
      session, then calls `redirect('/')`, which never returns normally, so
      the block always throws and its `return` is never reached. */
  function SignOutTryBlock(faults: set<Call>): (t: Thrown)
    ensures t.CollaboratorFailure? <==> DeleteSession in faults
    ensures t.NavigationSignal? ==> t.location == "/"
  {
    if DeleteSession in faults then CollaboratorFailure
    else NavigationSignal("/")
  }

  /** `signOut` as written: its catch clause catches everything thrown in the
      `try` block, the navigation signal included, so the caller always gets
      `UnexpectedError` and is never redirected, although the session was
      deleted. */
  function SignOutAsWritten(s: State, current: Option<UserId>, faults: set<Call>): (r: (SignOutOutcome, State))
    ensures r.0 == Respond(UnexpectedError())
    ensures DeleteSession !in faults ==> r.1 == CloseSession(s, current)
    ensures DeleteSession in faults ==> r.1 == s
  {
    match SignOutTryBlock(faults)
    case CollaboratorFailure => (Respond(UnexpectedError()), s)
    case NavigationSignal(_) => (Respond(UnexpectedError()), CloseSession(s, current))
  }

  /** `signOut` with `redirect('/')` moved after the try/catch, as the
      framework requires: a failed deletion is reported as `UnexpectedError`,
      otherwise the current session is gone and the caller is sent to "/". */
  function SignOut(s: State, current: Option<UserId>, faults: set<Call>): (r: (SignOutOutcome, State))
    ensures r.0.Redirect? <==> DeleteSession !in faults
    ensures r.0.Redirect? ==> r.0.location == "/"
    ensures r.0.Respond? ==> r.0.response == UnexpectedError() && r.1 == s
    ensures r.0.Redirect? ==> r.1 == CloseSession(s, current)
  {
    if DeleteSession in faults then (Respond(UnexpectedError()), s)
    else (Redirect("/"), CloseSession(s, current))
  }
}

=== FILE: form.dfy ===
/** The submitted form of a server action: an ordered list of name/value
    entries, and the `formData.get(name)?.toString() || ''` idiom that turns a
    missing field into the empty string before validation. */
module Form {
  import opened Wrappers

  /** One submitted form field. A name may occur more than once. */
  datatype Entry = Entry(name: string, value: string)

  type FormData = seq<Entry>

  /** `FormData.get`: the value of the FIRST entry carrying `name`, if any. */
  function Get(form: FormData, name: string): (r: Option<string>)
    ensures r.None? <==> forall i :: 0 <= i < |form| ==> form[i].name != name
    ensures r.Some? ==>
      exists i :: 0 <= i < |form| && form[i] == Entry(name, r.value)
                  && forall j :: 0 <= j < i ==> form[j].name != name
  {
    if |form| == 0 then None
    else if form[0].name == name then Some(form[0].value)
    else
      var rest := Get(form[1..], name);
      if rest.Some? then
        ghost var i :| 0 <= i < |form[1..]| && form[1..][i] == Entry(name, rest.value)
                       && forall j :: 0 <= j < i ==> form[1..][j].name != name;
        assert form[i + 1] == Entry(name, rest.value);
        assert forall j :: 0 <= j < i + 1 ==> form[j].name != name by {
          forall j | 0 <= j < i + 1 ensures form[j].name != name {
            if j > 0 { assert form[j] == form[1..][j - 1]; }
          }
        }
        rest
      else
        assert forall i :: 0 <= i < |form| ==> form[i].name != name by {
          forall i | 0 <= i < |form| ensures form[i].name != name {
            if i > 0 { assert form[i] == form[1..][i - 1]; }
          }
        }
        rest
  }

  /** `formData.get(name)?.toString() || ''`: a missing field reads as "",
      a present one as the value of its first occurrence. */
  function Field(form: FormData, name: string): (r: string)
    ensures (forall i :: 0 <= i < |form| ==> form[i].name != name) ==> r == ""
    ensures forall i :: 0 <= i < |form| && form[i].name == name
                        && (forall j :: 0 <= j < i ==> form[j].name != name)
                        ==> r == form[i].value
  {
    Get(form, name).GetOr("")
  }
}

=== FILE: properties.dfy ===
/** Properties of the authentication actions that relate a call to an
    independent description of its outcome, or several calls to each other. */
module Properties {
  import opened Wrappers
  import opened Form
  import opened Response
  import opened Schema
  import opened Store
  import opened Actions

  /** Sign-in reaches a collaborator call that throws: the lookup, or, for a
      registered address, the password check, or, for a verified password,
      session creation. */
  predicate SignInHitsFault(env: Env, s: State, c: Credentials, faults: set<Call>) {
    && ValidSignIn(c, env.isEmail)
    && (|| GetUserByEmail in faults
        || (c.email in s.users
            && (|| VerifyPassword in faults
                || (env.verifyPassword(c.password, s.users[c.email].password)
                    && CreateSession in faults))))
  }

  /** Sign-up reaches a collaborator call that throws: the lookup, or, for a
      new address, user creation, or then session creation. */
  predicate SignUpHitsFault(env: Env, s: State, r: Registration, faults: set<Call>) {
    && ValidSignUp(r, env.isEmail)
    && (|| GetUserByEmail in faults
        || (r.email !in s.users && (CreateUser in faults || CreateSession in faults)))
  }

  // ---------------------------------------------------------------------
  // Outcome classification

  /** Sign-in succeeds exactly when the credentials authenticate and none of
      the three collaborator calls throws. */
  lemma SignInSucceedsIff(env: Env, s: State, form: FormData, faults: set<Call>)
    ensures SignIn(env, s, form, faults).0.success
            <==> Authenticates(env, s, SignInData(form))
                 && GetUserByEmail !in faults && VerifyPassword !in faults && CreateSession !in faults
  {
  }

  /** Sign-up succeeds exactly when the registration is valid for a new
      address and none of the three collaborator calls throws. */
  lemma SignUpSucceedsIff(env: Env, s: State, form: FormData, faults: set<Call>)
    ensures SignUp(env, s, form, faults).0.success
            <==> CanRegister(env, s, SignUpData(form))
                 && GetUserByEmail !in faults && CreateUser !in faults && CreateSession !in faults
  {
  }

  /** Sign-in answers `UnexpectedError` exactly when a reached collaborator
      call throws, and then nothing changed. */
  lemma SignInUnexpectedIff(env: Env, s: State, form: FormData, faults: set<Call>)
    ensures SignIn(env, s, form, faults).0 == UnexpectedError()
            <==> SignInHitsFault(env, s, SignInData(form), faults)
    ensures SignInHitsFault(env, s, SignInData(form), faults) ==> SignIn(env, s, form, faults).1 == s
  {
  }

  /** Sign-up answers `UnexpectedError` exactly when a reached collaborator
      call throws. */
  lemma SignUpUnexpectedIff(env: Env, s: State, form: FormData, faults: set<Call>)
    ensures SignUp(env, s, form, faults).0 == UnexpectedError()
            <==> SignUpHitsFault(env, s, SignUpData(form), faults)
  {
  }

  /** A rejected form never reaches a collaborator: the response depends on
      neither the store nor which calls would have thrown, and the state is
      left as it was. */
  lemma ValidationIgnoresFaults(env: Env, s1: State, s2: State, form: FormData, f1: set<Call>, f2: set<Call>)
    ensures !ValidSignIn(SignInData(form), env.isEmail) ==>
      && SignIn(env, s1, form, f1).0 == SignIn(env, s2, form, f2).0
      && SignIn(env, s1, form, f1).1 == s1
    ensures !ValidSignUp(SignUpData(form), env.isEmail) ==>
      && SignUp(env, s1, form, f1).0 == SignUp(env, s2, form, f2).0
      && SignUp(env, s1, form, f1).1 == s1
  {
  }

  // ---------------------------------------------------------------------
  // Validation

  /** A form that breaks any sign-in rule is answered with "Validation
      failed" and the flattened issues of exactly the rules it breaks, and
      nothing changes. */
  lemma SignInValidationFailed(env: Env, s: State, form: FormData, faults: set<Call>)
    requires !ValidSignIn(SignInData(form), env.isEmail)
    ensures SignIn(env, s, form, faults)
            == (ValidationFailed(Flatten(SignInIssues(SignInData(form), env.isEmail))), s)
  {
  }

  /** A form that breaks any sign-up rule is answered with "Validation
      failed" and the flattened issues of exactly the rules it breaks, and
      nothing changes. */
  lemma SignUpValidationFailed(env: Env, s: State, form: FormData, faults: set<Call>)
    requires !ValidSignUp(SignUpData(form), env.isEmail)
    ensures SignUp(env, s, form, faults)
            == (ValidationFailed(Flatten(SignUpIssues(SignUpData(form), env.isEmail))), s)
  {
  }

  /** A missing or empty address or password fails sign-in validation, with
      the "required" message on each empty field, and changes nothing. */
  lemma SignInEmptyFieldRejected(env: Env, s: State, form: FormData, faults: set<Call>)
    requires Field(form, EMAIL) == "" || Field(form, PASSWORD) == ""
    ensures var (r, s') := SignIn(env, s, form, faults);
      && !r.success && r.message == VALIDATION_FAILED && r.error.None?
      && r.errors.Some? && |r.errors.value| > 0
      && (Field(form, EMAIL) == "" ==> EMAIL in r.errors.value && EMAIL_REQUIRED in r.errors.value[EMAIL])
      && (Field(form, PASSWORD) == "" ==> PASSWORD in r.errors.value && PASSWORD_REQUIRED in r.errors.value[PASSWORD])
      && s' == s
  {
    var c := SignInData(form);
    var issues := SignInIssues(c, env.isEmail);
    MessageReported(issues, Issue(EMAIL, EMAIL_REQUIRED));
    MessageReported(issues, Issue(PASSWORD, PASSWORD_REQUIRED));
  }

  /** An issue in the list shows up under its field in the flattened map. */
  lemma MessageReported(issues: seq<Issue>, issue: Issue)
    ensures issue in issues ==>
              issue.field in Flatten(issues) && issue.message in Flatten(issues)[issue.field]
  {
    if issue in issues {
      var i :| 0 <= i < |issues| && issues[i] == issue;
      MessagesForContains(issues, i);
    }
  }

  /** The message of the `i`-th issue is among the messages of its field. */
  lemma {:induction false} MessagesForContains(issues: seq<Issue>, i: nat)
    requires i < |issues|
    ensures issues[i].message in MessagesFor(issues, issues[i].field)
  {
    var prefix := issues[..|issues| - 1];
    if i < |issues| - 1 {
      assert prefix[i] == issues[i];
      MessagesForContains(prefix, i);
    }
  }

  /** A sign-up password shorter than six characters fails validation with
      the length message on `password`, and changes nothing. */
  lemma SignUpShortPasswordRejected(env: Env, s: State, form: FormData, faults: set<Call>)
    requires |Field(form, PASSWORD)| < MIN_PASSWORD
    ensures var (r, s') := SignUp(env, s, form, faults);
      && !r.success && r.message == VALIDATION_FAILED
      && r.errors.Some? && PASSWORD in r.errors.value && PASSWORD_TOO_SHORT in r.errors.value[PASSWORD]
      && s' == s
  {
    MessageReported(SignUpIssues(SignUpData(form), env.isEmail), Issue(PASSWORD, PASSWORD_TOO_SHORT));
  }

  /** Differing password and confirmation always fail sign-up validation with
      the mismatch message on `confirmPassword`, whatever else is wrong. */
  lemma SignUpMismatchRejected(env: Env, s: State, form: FormData, faults: set<Call>)
    requires Field(form, PASSWORD) != Field(form, CONFIRM_PASSWORD)
    ensures var (r, s') := SignUp(env, s, form, faults);
      && !r.success && r.message == VALIDATION_FAILED
      && r.errors.Some? && CONFIRM_PASSWORD in r.errors.value
      && PASSWORDS_DONT_MATCH in r.errors.value[CONFIRM_PASSWORD]
      && s' == s
  {
    MessageReported(SignUpIssues(SignUpData(form), env.isEmail), Issue(CONFIRM_PASSWORD, PASSWORDS_DONT_MATCH));
  }

  /** When every field passes its own rule and only the confirmation
      differs, the mismatch is the one and only reported error. */
  lemma SignUpOnlyMismatch(env: Env, s: State, form: FormData, faults: set<Call>)
    requires var d := SignUpData(form);
      |d.email| >= 1 && env.isEmail(d.email) && |d.password| >= MIN_PASSWORD && |d.confirmPassword| >= 1
    requires Field(form, PASSWORD) != Field(form, CONFIRM_PASSWORD)
    ensures SignUp(env, s, form, faults) == (ValidationFailed(map[CONFIRM_PASSWORD := [PASSWORDS_DONT_MATCH]]), s)
  {
    var issues := SignUpIssues(SignUpData(form), env.isEmail);
    assert issues == [Issue(CONFIRM_PASSWORD, PASSWORDS_DONT_MATCH)];
    FlattenSingle(Issue(CONFIRM_PASSWORD, PASSWORDS_DONT_MATCH));
    assert SafeParseSignUp(SignUpData(form), env.isEmail) == Failure(issues);
  }

  /** A single issue flattens to a one-entry map. */
  lemma FlattenSingle(issue: Issue)
    ensures Flatten([issue]) == map[issue.field := [issue.message]]
  {
    var m := Flatten([issue]);
    assert [issue][..0] == [];
    assert MessagesFor([issue], issue.field) == [issue.message];
    assert forall k :: k in m <==> k == issue.field;
  }

  // ---------------------------------------------------------------------
  // Sign-in paths

  /** A valid but unregistered address: "User not found" with the generic
      field error on `email`; nothing changes. */
  lemma SignInUnknownEmail(env: Env, s: State, form: FormData, faults: set<Call>)
    requires ValidSignIn(SignInData(form), env.isEmail)
    requires SignInData(form).email !in s.users
    requires GetUserByEmail !in faults
    ensures SignIn(env, s, form, faults)
            == (ActionResponse(false, USER_NOT_FOUND, Some(map[EMAIL := [INVALID_CREDENTIALS]]), None), s)
  {
  }

  /** A registered address with a password that does not verify: "Invalid
      email or password" on `password`; no session is created. */
  lemma SignInWrongPassword(env: Env, s: State, form: FormData, faults: set<Call>)
    requires ValidSignIn(SignInData(form), env.isEmail)
    requires SignInData(form).email in s.users
    requires !env.verifyPassword(SignInData(form).password, s.users[SignInData(form).email].password)
    requires GetUserByEmail !in faults && VerifyPassword !in faults
    ensures SignIn(env, s, form, faults)
            == (ActionResponse(false, INVALID_CREDENTIALS, Some(map[PASSWORD := [INVALID_CREDENTIALS]]), None), s)
  {
  }

  /** A successful sign-in adds exactly one session, for the user's id, and
      leaves the users alone. */
  lemma SignInAddsOneSession(env: Env, s: State, form: FormData, faults: set<Call>)
    requires Authenticates(env, s, SignInData(form))
    requires faults !! {GetUserByEmail, VerifyPassword, CreateSession}
    ensures var (r, s') := SignIn(env, s, form, faults);
      && r == SignInSuccessful() && r.errors.None? && r.error.None?
      && s'.users == s.users
      && |s'.sessions| == |s.sessions| + 1
      && s'.sessions[s.users[SignInData(form).email].id] == s.sessions[s.users[SignInData(form).email].id] + 1
  {
  }

  // ---------------------------------------------------------------------
  // Sign-up paths

  /** An address already registered: "User already exists" on `email`; the
      store and the sessions are untouched. */
  lemma SignUpExistingEmail(env: Env, s: State, form: FormData, faults: set<Call>)
    requires ValidSignUp(SignUpData(form), env.isEmail)
    requires SignUpData(form).email in s.users
    requires GetUserByEmail !in faults
    ensures SignUp(env, s, form, faults)
            == (ActionResponse(false, USER_ALREADY_EXISTS, Some(map[EMAIL := [EMAIL_ALREADY_REGISTERED]]), None), s)
  {
  }

  /** A new address: exactly one user and one session for its fresh id are
      added, and "Sign up successful" is answered. */
  lemma SignUpAddsOneUserAndSession(env: Env, s: State, form: FormData, faults: set<Call>)
    requires Valid(s)
    requires CanRegister(env, s, SignUpData(form))
    requires faults !! {GetUserByEmail, CreateUser, CreateSession}
    ensures var (r, s') := SignUp(env, s, form, faults);
      && r == SignUpSuccessful()
      && s'.users.Keys == s.users.Keys + {SignUpData(form).email}
      && |s'.users| == |s.users| + 1
      && s'.users[SignUpData(form).email].id !in Ids(s)
      && s'.sessions == s.sessions + multiset{s'.users[SignUpData(form).email].id}
  {
    var d := SignUpData(form);
    assert SafeParseSignUp(d, env.isEmail).Success?;
    InsertUserKeepsValid(env, s, d.email, d.password);
  }

  /** When session creation throws after the user record was created, the
      user stays registered without a session, and a retry of the same
      sign-up is told the address is taken. */
  lemma SignUpLeavesOrphanUser(env: Env, s: State, form: FormData)
    requires CanRegister(env, s, SignUpData(form))
    ensures var (r, s') := SignUp(env, s, form, {CreateSession});
      && r == UnexpectedError()
      && SignUpData(form).email in s'.users
      && s'.sessions == s.sessions
      && SignUp(env, s', form, {}) == (UserAlreadyExists(), s')
  {
    var d := SignUpData(form);
    assert SafeParseSignUp(d, env.isEmail).Success?;
    var s' := SignUp(env, s, form, {CreateSession}).1;
    SignUpExistingEmail(env, s', form, {});
  }

  /** A user who just signed up with a valid registration for a new address
      can sign in with the same address and password, provided the password
      check accepts a password against its own stored hash. */
  lemma SignInAfterSignUp(env: Env, s: State, registration: FormData, login: FormData)
    requires CanRegister(env, s, SignUpData(registration))
    requires Field(login, EMAIL) == Field(registration, EMAIL)
    requires Field(login, PASSWORD) == Field(registration, PASSWORD)
    requires env.verifyPassword(Field(login, PASSWORD), env.hash(Field(login, PASSWORD)))
    ensures SignIn(env, SignUp(env, s, registration, {}).1, login, {}).0 == SignInSuccessful()
  {
    var d := SignUpData(registration);
    SignUpSucceedsIff(env, s, registration, {});
    var s' := SignUp(env, s, registration, {}).1;
    assert s'.users[d.email] == User(s.nextId, d.email, env.hash(d.password));
    assert ValidSignIn(SignInData(login), env.isEmail);
    SignInSucceedsIff(env, s', login, {});
  }

  // ---------------------------------------------------------------------
  // Sign-out

  /** Without a failure, the corrected sign-out redirects to "/" while the
      code as written answers `UnexpectedError`; both delete the session. */
  lemma SignOutAsWrittenNeverRedirects(s: State, current: Option<UserId>)
    ensures SignOut(s, current, {}).0 == Redirect("/")
    ensures SignOutAsWritten(s, current, {}).0 == Respond(UnexpectedError())
    ensures SignOut(s, current, {}).1 == SignOutAsWritten(s, current, {}).1 == CloseSession(s, current)
  {
  }

  /** The two sign-outs differ only in what the caller observes, never in
      the sessions they leave, and agree whenever the deletion throws. */
  lemma SignOutVersionsAgreeOnState(s: State, current: Option<UserId>, faults: set<Call>)
    ensures SignOut(s, current, faults).1 == SignOutAsWritten(s, current, faults).1
    ensures DeleteSession in faults ==> SignOut(s, current, faults) == SignOutAsWritten(s, current, faults)
  {
  }

  // ---------------------------------------------------------------------
  // The store invariant

  /** Sign-in keeps the store's invariant. */
  lemma SignInKeepsValid(env: Env, s: State, form: FormData, faults: set<Call>)
    requires Valid(s)
    ensures Valid(SignIn(env, s, form, faults).1)
  {
    var c := SignInData(form);
    if SignIn(env, s, form, faults).0.success {
      assert s.users[c.email].id in Ids(s);
    }
  }

  /** Sign-up keeps the store's invariant, the orphan-user case included. */
  lemma SignUpKeepsValid(env: Env, s: State, form: FormData, faults: set<Call>)
    requires Valid(s)
    ensures Valid(SignUp(env, s, form, faults).1)
  {
    var d := SignUpData(form);
    var s' := SignUp(env, s, form, faults).1;
    if s' != s {
      SignUpSucceedsIff(env, s, form, faults);
      InsertUserKeepsValid(env, s, d.email, d.password);
      var (user, s1) := InsertUser(env, s, d.email, d.password);
      assert s'.users == s1.users && s'.nextId == s1.nextId;
      assert s'.sessions == s1.sessions || s'.sessions == s1.sessions + multiset{user.id};
      assert user.id in Ids(s1) by { assert s1.users[d.email] == user; }
    }
  }

  /** Sign-out, corrected or as written, keeps the store's invariant. */
  lemma SignOutKeepsValid(s: State, current: Option<UserId>, faults: set<Call>)
    requires Valid(s)
    ensures Valid(SignOut(s, current, faults).1)
    ensures Valid(SignOutAsWritten(s, current, faults).1)
  {
  }
}

=== FILE: response.dfy ===
/** The uniform result every authentication action hands back to its caller:
    expected failures travel as data, never as exceptions. */
module Response {
  import opened Wrappers

  /** Field-keyed violation messages, as the form re-renders them. */
  type FieldErrors = map<string, seq<string>>

  datatype ActionResponse = ActionResponse(
    success: bool,
    message: string,
    errors: Option<FieldErrors>,
    error: Option<string>)
  {
    /** The shape every caller may rely on: a failure carries either
        field-level errors (a non-empty map of non-empty lists) or an error
        category, and a success carries neither. */
    predicate WellFormed() {
      && (success <==> errors.None? && error.None?)
      && (errors.Some? ==> |errors.value| > 0
                           && forall k :: k in errors.value ==> |errors.value[k]| > 0)
    }
  }

  const EMAIL := "email"
  const PASSWORD := "password"
  const CONFIRM_PASSWORD := "confirmPassword"

  const VALIDATION_FAILED := "Validation failed"
  const USER_NOT_FOUND := "User not found"
  const INVALID_CREDENTIALS := "Invalid email or password"
  const USER_ALREADY_EXISTS := "User already exists"
  const EMAIL_ALREADY_REGISTERED := "Email is already registered"
  const SIGN_IN_SUCCESSFUL := "Sign in successful"
  const SIGN_UP_SUCCESSFUL := "Sign up successful"
  const UNEXPECTED_MESSAGE := "An unexpected error occurred. Please try again later."
  const UNEXPECTED_ERROR := "UnexpectedError"

  /** The schema rejected the input; `errors` is its field-error map. */
  function ValidationFailed(errors: FieldErrors): ActionResponse {
    ActionResponse(false, VALIDATION_FAILED, Some(errors), None)
  }

  /** Sign-in found no user for the address. The message is specific while
      the field error is generic. */
  function UserNotFound(): ActionResponse {
    ActionResponse(false, USER_NOT_FOUND, Some(map[EMAIL := [INVALID_CREDENTIALS]]), None)
  }

  /** Sign-in found the user but the password did not verify. */
  function InvalidCredentials(): ActionResponse {
    ActionResponse(false, INVALID_CREDENTIALS, Some(map[PASSWORD := [INVALID_CREDENTIALS]]), None)
  }

  /** Sign-up found the address already registered. */
  function UserAlreadyExists(): ActionResponse {
    ActionResponse(false, USER_ALREADY_EXISTS, Some(map[EMAIL := [EMAIL_ALREADY_REGISTERED]]), None)
  }

  function SignInSuccessful(): ActionResponse {
    ActionResponse(true, SIGN_IN_SUCCESSFUL, None, None)
  }

  function SignUpSuccessful(): ActionResponse {
    ActionResponse(true, SIGN_UP_SUCCESSFUL, None, None)
  }

  /** What the catch clause of every action returns, whatever was thrown:
      the cause is logged, never shown. */
  function UnexpectedError(): ActionResponse {
    ActionResponse(false, UNEXPECTED_MESSAGE, None, Some(UNEXPECTED_ERROR))
  }
}

=== FILE: schema.dfy ===
/** The two zod schemas of the actions and the field-error map their
    `safeParse(...).error.flatten().fieldErrors` yields.

    Every input field is a string by the time it is parsed (missing fields
    were defaulted to ""), so the object parse never aborts: each string
    check that fails adds one issue, in declaration order, and the sign-up
    cross-field refinement runs as well. Whether a string is an e-mail
    address is the library's concern and stays a parameter, `isEmail`. */
module Schema {
  import opened Response

  /** One reported violation: the field it is attached to and its message. */
  datatype Issue = Issue(field: string, message: string)

  datatype Credentials = Credentials(email: string, password: string)

  datatype Registration = Registration(email: string, password: string, confirmPassword: string)

  /** Outcome of `safeParse`: the parsed value, or the (non-empty) issues. */
  datatype Parsed<T> = Success(data: T) | Failure(issues: seq<Issue>)

  const EMAIL_REQUIRED := "Email is required"
  const INVALID_EMAIL_FORMAT := "Invalid email format"
  const PASSWORD_REQUIRED := "Password is required"
  const PASSWORD_TOO_SHORT := "Password must be at least 6 characters"
  const CONFIRM_REQUIRED := "Please confirm your password"
  const PASSWORDS_DONT_MATCH := "Passwords don't match"

  /** Minimum sign-up password length. */
  const MIN_PASSWORD := 6

  /** The sign-in rules, stated directly. */
  predicate ValidSignIn(c: Credentials, isEmail: string -> bool) {
    |c.email| >= 1 && isEmail(c.email) && |c.password| >= 1
  }

  /** The sign-up rules, stated directly, including the cross-field rule. */
  predicate ValidSignUp(r: Registration, isEmail: string -> bool) {
    && |r.email| >= 1 && isEmail(r.email)
    && |r.password| >= MIN_PASSWORD
    && |r.confirmPassword| >= 1
    && r.password == r.confirmPassword
  }

  /** One issue on `field` when the check fails, none otherwise. */
  function Check(ok: bool, field: string, message: string): seq<Issue> {
    if ok then [] else [Issue(field, message)]
  }

  /** The field names differ from each other. */
  lemma FieldsDistinct()
    ensures EMAIL != PASSWORD && EMAIL != CONFIRM_PASSWORD && PASSWORD != CONFIRM_PASSWORD
  {
    assert |EMAIL| != |PASSWORD| && |EMAIL| != |CONFIRM_PASSWORD| && |PASSWORD| != |CONFIRM_PASSWORD|;
  }

  /** `z.string().min(1, ...).email(...)`, shared by both schemas: each
      message exactly when its check fails, all on `email`, none repeated. */
  function EmailIssues(email: string, isEmail: string -> bool): (issues: seq<Issue>)
    ensures issues == [] <==> |email| >= 1 && isEmail(email)
    ensures forall x :: x in issues ==> x in {Issue(EMAIL, EMAIL_REQUIRED), Issue(EMAIL, INVALID_EMAIL_FORMAT)}
    ensures Issue(EMAIL, EMAIL_REQUIRED) in issues <==> |email| == 0
    ensures Issue(EMAIL, INVALID_EMAIL_FORMAT) in issues <==> !isEmail(email)
  {
    assert |EMAIL_REQUIRED| != |INVALID_EMAIL_FORMAT|;
    Check(|email| >= 1, EMAIL, EMAIL_REQUIRED) + Check(isEmail(email), EMAIL, INVALID_EMAIL_FORMAT)
  }

  /** `confirmPassword`'s own check followed by the refinement, both on
      `confirmPassword`: each message exactly when its check fails, none
      repeated. */
  function ConfirmIssues(r: Registration): (issues: seq<Issue>)
    ensures issues == [] <==> |r.confirmPassword| >= 1 && r.password == r.confirmPassword
    ensures forall x :: x in issues ==>
      x in {Issue(CONFIRM_PASSWORD, CONFIRM_REQUIRED), Issue(CONFIRM_PASSWORD, PASSWORDS_DONT_MATCH)}
    ensures Issue(CONFIRM_PASSWORD, CONFIRM_REQUIRED) in issues <==> |r.confirmPassword| == 0
    ensures Issue(CONFIRM_PASSWORD, PASSWORDS_DONT_MATCH) in issues <==> r.password != r.confirmPassword
  {
    assert |CONFIRM_REQUIRED| != |PASSWORDS_DONT_MATCH|;
    Check(|r.confirmPassword| >= 1, CONFIRM_PASSWORD, CONFIRM_REQUIRED)
    + Check(r.password == r.confirmPassword, CONFIRM_PASSWORD, PASSWORDS_DONT_MATCH)
  }

  /** The issues `SignInSchema` reports, in order: one per failing check and
      nothing else. */
  function SignInIssues(c: Credentials, isEmail: string -> bool): (issues: seq<Issue>)
    ensures issues == [] <==> ValidSignIn(c, isEmail)
    ensures forall i :: 0 <= i < |issues| ==>
      issues[i] in {Issue(EMAIL, EMAIL_REQUIRED), Issue(EMAIL, INVALID_EMAIL_FORMAT), Issue(PASSWORD, PASSWORD_REQUIRED)}
    ensures NoRepeats(issues)
    ensures Issue(EMAIL, EMAIL_REQUIRED) in issues <==> |c.email| == 0
    ensures Issue(EMAIL, INVALID_EMAIL_FORMAT) in issues <==> !isEmail(c.email)
    ensures Issue(PASSWORD, PASSWORD_REQUIRED) in issues <==> |c.password| == 0
  {
    FieldsDistinct();
    EmailIssues(c.email, isEmail) + Check(|c.password| >= 1, PASSWORD, PASSWORD_REQUIRED)
  }

  /** The issues `SignUpSchema` reports, in order: the three field rules,
      then the refinement, attached to `confirmPassword`. One issue per
      failing check and nothing else. */
  function SignUpIssues(r: Registration, isEmail: string -> bool): (issues: seq<Issue>)
    ensures issues == [] <==> ValidSignUp(r, isEmail)
    ensures forall x :: x in issues ==>
      x in {Issue(EMAIL, EMAIL_REQUIRED), Issue(EMAIL, INVALID_EMAIL_FORMAT),
            Issue(PASSWORD, PASSWORD_TOO_SHORT), Issue(CONFIRM_PASSWORD, CONFIRM_REQUIRED),
            Issue(CONFIRM_PASSWORD, PASSWORDS_DONT_MATCH)}
    ensures Issue(EMAIL, EMAIL_REQUIRED) in issues <==> |r.email| == 0
    ensures Issue(EMAIL, INVALID_EMAIL_FORMAT) in issues <==> !isEmail(r.email)
    ensures Issue(PASSWORD, PASSWORD_TOO_SHORT) in issues <==> |r.password| < MIN_PASSWORD
    ensures Issue(CONFIRM_PASSWORD, CONFIRM_REQUIRED) in issues <==> |r.confirmPassword| == 0
    ensures Issue(CONFIRM_PASSWORD, PASSWORDS_DONT_MATCH) in issues <==> r.password != r.confirmPassword
  {
    FieldsDistinct();
    EmailIssues(r.email, isEmail)
    + Check(|r.password| >= MIN_PASSWORD, PASSWORD, PASSWORD_TOO_SHORT)
    + ConfirmIssues(r)
  }

  /** No element occurs twice. */
  predicate NoRepeats<T(==)>(s: seq<T>) {
    forall i, j :: 0 <= i < j < |s| ==> s[i] != s[j]
  }

  /** Joining two repeat-free lists with no common element gives a
      repeat-free list. */
  lemma NoRepeatsAppend<T>(a: seq<T>, b: seq<T>)
    requires NoRepeats(a) && NoRepeats(b)
    requires forall x :: x in a ==> x !in b
    ensures NoRepeats(a + b)
  {
    var ab := a + b;
    forall i, j | 0 <= i < j < |ab| ensures ab[i] != ab[j] {
      if j < |a| {
        assert ab[i] == a[i] && ab[j] == a[j];
      } else if i >= |a| {
        assert ab[i] == b[i - |a|] && ab[j] == b[j - |a|];
      } else {
        assert ab[i] == a[i] && ab[j] == b[j - |a|];
        assert a[i] in a && b[j - |a|] in b;
      }
    }
  }

  /** Sign-up never reports the same issue twice. */
  lemma SignUpIssuesNoRepeats(r: Registration, isEmail: string -> bool)
    ensures NoRepeats(SignUpIssues(r, isEmail))
  {
    FieldsDistinct();
    var email := EmailIssues(r.email, isEmail);
    var length := Check(|r.password| >= MIN_PASSWORD, PASSWORD, PASSWORD_TOO_SHORT);
    var confirm := ConfirmIssues(r);
    assert NoRepeats(email) by { assert |EMAIL_REQUIRED| != |INVALID_EMAIL_FORMAT|; }
    assert NoRepeats(confirm) by { assert |CONFIRM_REQUIRED| != |PASSWORDS_DONT_MATCH|; }
    NoRepeatsAppend(email, length);
    NoRepeatsAppend(email + length, confirm);
  }

  /** `SignInSchema.safeParse`. */
  function SafeParseSignIn(c: Credentials, isEmail: string -> bool): (p: Parsed<Credentials>)
    ensures p.Success? <==> ValidSignIn(c, isEmail)
    ensures p.Success? ==> p.data == c
    ensures p.Failure? ==> |p.issues| > 0
  {
    var issues := SignInIssues(c, isEmail);
    if issues == [] then Success(c) else Failure(issues)
  }

  /** `SignUpSchema.safeParse`. */
  function SafeParseSignUp(r: Registration, isEmail: string -> bool): (p: Parsed<Registration>)
    ensures p.Success? <==> ValidSignUp(r, isEmail)
    ensures p.Success? ==> p.data == r
    ensures p.Failure? ==> |p.issues| > 0
  {
    var issues := SignUpIssues(r, isEmail);
    if issues == [] then Success(r) else Failure(issues)
  }

  /** Reference definition: the messages of the issues on `field`, in order. */
  function MessagesFor(issues: seq<Issue>, field: string): seq<string> {
    if |issues| == 0 then []
    else
      var last := issues[|issues| - 1];
      MessagesFor(issues[..|issues| - 1], field) + (if last.field == field then [last.message] else [])
  }

  /** `error.flatten().fieldErrors`: groups the issues by field, keeping
      their order; a field with no issue has no key. */
  function Flatten(issues: seq<Issue>): (m: map<string, seq<string>>)
    ensures forall k :: k in m <==> exists i :: 0 <= i < |issues| && issues[i].field == k
    ensures forall k :: k in m ==> m[k] == MessagesFor(issues, k) && |m[k]| > 0
    ensures forall k :: k !in m ==> MessagesFor(issues, k) == []
  {
    if |issues| == 0 then map[]
    else
      var prefix := issues[..|issues| - 1];
      var last := issues[|issues| - 1];
      var m := Flatten(prefix);
      var before := if last.field in m then m[last.field] else [];
      var m' := m[last.field := before + [last.message]];
      forall k ensures k in m' <==> exists i :: 0 <= i < |issues| && issues[i].field == k {
        if k in m && k != last.field {
          var i :| 0 <= i < |prefix| && prefix[i].field == k;
          assert issues[i] == prefix[i];
        }
        if exists i :: 0 <= i < |issues| && issues[i].field == k {
          var i :| 0 <= i < |issues| && issues[i].field == k;
          if i < |prefix| { assert prefix[i] == issues[i]; }
        }
      }
      m'
  }

  /** A failed parse yields a non-empty field-error map of non-empty lists,
      so the validation response is never empty-handed. */
  lemma FlattenNonEmpty(issues: seq<Issue>)
    requires |issues| > 0
    ensures |Flatten(issues)| > 0
    ensures forall k :: k in Flatten(issues) ==> |Flatten(issues)[k]| > 0
  {
    var m := Flatten(issues);
    var k := issues[0].field;
    assert k in m.Keys;
    assert |m.Keys| >= |{k}| by { assert {k} <= m.Keys; }
  }
}

=== FILE: store.dfy ===
/** The collaborators the actions call: the credential store
    (`getUserByEmail`, `createUser`), password verification and the session
    gateway (`createSession`, `deleteSession`). Their internals are not part
    of the model: the store is a map from address to user plus an id
    counter, sessions are a multiset of user ids (one element per
    `createSession` call), and the e-mail syntax check, password hashing and
    password verification are parameters. */
module Store {
  import opened Wrappers

  type UserId = nat

  /** A stored user; `password` is whatever the store keeps (a hash). */
  datatype User = User(id: UserId, email: string, password: string)

  datatype State = State(users: map<string, User>, sessions: multiset<UserId>, nextId: UserId)

  /** The parts of the environment the model leaves abstract. */
  datatype Env = Env(
    isEmail: string -> bool,
    hash: string -> string,
    verifyPassword: (string, string) -> bool)

  /** The collaborator calls an action can make; the set of calls that throw
      when reached is a parameter of every action. */
  datatype Call = GetUserByEmail | VerifyPassword | CreateUser | CreateSession | DeleteSession

  /** Ids of the registered users. */
  function Ids(s: State): set<UserId> {
    set e | e in s.users :: s.users[e].id
  }

  /** The store's invariant: users are filed under their own address, ids
      are distinct and below the counter, and every session belongs to a
      registered user. */
  ghost predicate Valid(s: State) {
    && (forall e :: e in s.users ==> s.users[e].email == e && s.users[e].id < s.nextId)
    && (forall e1, e2 :: e1 in s.users && e2 in s.users && e1 != e2 ==> s.users[e1].id != s.users[e2].id)
    && (forall u :: u in s.sessions ==> u in Ids(s))
  }

  /** `getUserByEmail`: exact-match lookup. */
  function FindUser(s: State, email: string): (r: Option<User>)
    ensures r.None? <==> email !in s.users
    ensures Valid(s) && r.Some? ==> r.value.email == email && r.value.id in Ids(s)
  {
    if email in s.users then Some(s.users[email]) else None
  }

  /** `createUser`: files a new user under `email` with the next free id and
      the hashed password; nothing else changes. */
  function InsertUser(env: Env, s: State, email: string, password: string): (r: (User, State))
    ensures r.0 == User(s.nextId, email, env.hash(password))
    ensures r.1.users.Keys == s.users.Keys + {email}
    ensures r.1.users[email] == r.0
    ensures forall e :: e in s.users && e != email ==> r.1.users[e] == s.users[e]
    ensures r.1.sessions == s.sessions && r.1.nextId == s.nextId + 1
  {
    var user := User(s.nextId, email, env.hash(password));
    (user, State(s.users[email := user], s.sessions, s.nextId + 1))
  }

  /** Filing a new address keeps the invariant, and the new id was unused. */
  lemma InsertUserKeepsValid(env: Env, s: State, email: string, password: string)
    requires Valid(s) && email !in s.users
    ensures Valid(InsertUser(env, s, email, password).1)
    ensures InsertUser(env, s, email, password).0.id !in Ids(s)
    ensures Ids(InsertUser(env, s, email, password).1) == Ids(s) + {s.nextId}
  {
    var (user, s') := InsertUser(env, s, email, password);
    forall u | u in Ids(s') ensures u in Ids(s) + {user.id} {
      var e :| e in s'.users && s'.users[e].id == u;
      if e != email { assert e in s.users; }
    }
    forall u | u in Ids(s) ensures u in Ids(s') {
      var e :| e in s.users && s.users[e].id == u;
      assert s'.users[e] == s.users[e];
    }
    assert s'.users[email].id == user.id;
  }

  /** `createSession(id)`: one more session for the user. */
  function OpenSession(s: State, id: UserId): (r: State)
    ensures r.sessions == s.sessions + multiset{id}
    ensures r.users == s.users && r.nextId == s.nextId
    ensures Valid(s) && id in Ids(s) ==> Valid(r)
  {
    s.(sessions := s.sessions + multiset{id})
  }

  /** `deleteSession()`: ends the session of the current request, if it has
      one; the request's session context is passed explicitly. */
  function CloseSession(s: State, current: Option<UserId>): (r: State)
    ensures current.None? ==> r == s
    ensures current.Some? ==> r.sessions == s.sessions - multiset{current.value}
    ensures r.users == s.users && r.nextId == s.nextId
    ensures Valid(s) ==> Valid(r)
  {
    match current
    case None => s
    case Some(id) => s.(sessions := s.sessions - multiset{id})
  }
}

=== FILE: wrappers.dfy ===
/** Optional values, used for the response's optional members and for lookups
    that can come back empty. */
module Wrappers {

  datatype Option<+T> = None | Some(value: T) {

    /** The value held, or `default` when there is none. */
    function GetOr(default: T): (r: T)
      ensures Some? ==> r == value
      ensures None? ==> r == default
    {
      match this
      case Some(v) => v
      case None => default
    }
  }
}
